=== FILE: README.md ===
# DeFi swap bot — a Dafny model of its trading core

The program drives a decentralised-exchange web page in a browser. It swaps its
whole balance back and forth between two stable-value tokens, USDC and USDT. Before
each swap it reads the quoted cost and only swaps when the cost is positive and at
most a per-trade ceiling. Two budgets stop it: a trade count and a total cost.

This project models that core in Dafny 4.11. The browser is replaced by oracle
values: for every click strategy, whether its click went through; for every
inspection, the label texts it read; for every cost lookup, the texts the page
offered. The wall clock is an input. On top of this the model has:

- `CostGate` (`cost_gate.dfy`): the two regular-expression strategies of
  `extract_cost_from_page` with their greedy leftmost-match semantics (over
  ASCII digits), the 0.2 fallback, and the accept/reject test.
- `Resolver` (`resolver.dfy`): the ordered strategy chains of `click_all_button`,
  `click_swap_button` and `click_reverse_button`, plus `confirm_transaction`.
- `Tokens` and `Reconciler` (`tokens.dfy`, `reconciler.dfy`): reading the displayed
  token order from label texts, and `ensure_swap_direction`. The reconciler is also
  run against a page whose displayed pair each successful reversal swaps. On that
  page its verdict is proved truthful.
- `Ledger` (`ledger.dfy`): the transaction records and their cost total.
- `TradeLoop` (`trade_loop.dfy`): the bootstrap probe of both directions, one loop
  iteration as a pure step over an immutable run state, and the loop itself as a
  method that is proved to compute the fold of that step over the iterations
  while the budget guard holds.

Costs are exact `real`s. Python's binary floating point is not modelled.

The code behaves as follows at points where one might expect otherwise; the
model follows the code:

- The 0.2 fallback cost is not rejected. It passes the default 0.3 ceiling
  (`TradeLoop.FallbackQuoteStartsUsdcToUsdt`).
- When no direction is tradable at start-up, `main` closes the browser and returns
  without printing a summary.
- The backoff is not a rolling window of three rejections within ten seconds. Each
  rejection is compared with the time of the previous rejection (or the loop
  start): it bumps the counter when that was under ten seconds ago and clears it
  otherwise. The flip after a trade does not reset that time.
- A failed reversal inside `ensure_swap_direction` is not terminal. The next
  inspection simply follows, and the verdict depends only on what the inspections
  read.
- After a recorded trade the direction is flipped only when the post-trade
  `wait_for_load_state` does not time out. If it times out, the loop's exception
  handler skips the flip, and the next trade goes the same way.

## Model

| member | source | states |
|---|---|---|
| CostGate.DigitRun | defi.py:86 | the greedy `\d+` run from a position, over ASCII digits: every character in it is a digit and the character after it is not |
| CostGate.DecimalValue | defi.py:88 | the number a captured `whole.frac` group denotes lies in [whole, whole + 1) |
| CostGate.DecimalAtIsGreedyMatch | defi.py:86 | a decimal is found at a position exactly when a greedy `\d+\.\d+` span starts there, and its value is that span's value |
| CostGate.SearchFrom | defi.py:86-97 | `re.search` returns the leftmost position whose match succeeds, no earlier position matches, and no match means no position matches |
| CostGate.PageTextFrom | defi.py:92-101 | the page-text strategy returns the first candidate with a `$`-number, every earlier candidate was readable and had none, and an unreadable candidate ends the scan |
| CostGate.ExtractCost | defi.py:80-105 | the label strategy wins whenever its sibling text has a number; otherwise the first page-text hit; otherwise exactly 0.2. The quote is never negative and every page yields one |
| CostGate.LabelQuoteRoundTrip | defi.py:83-88 | a cost written `$<digits>.<digits>` or `<digits>.<digits>` next to the Cost label is read back as exactly that number |
| CostGate.PageQuoteRoundTrip | defi.py:83-99 | when the label sibling is missing or has no number, a first page-wide element whose first `$`-number is `$<digits>.<digits>` is read back as exactly that number |
| CostGate.DollarQuoteFound | defi.py:97-99 | the page-wide pattern reads the first `$<digits>.<digits>` of a text (no match starts before it) back as exactly that number |
| CostGate.DollarFreePrefixQuoteFound | defi.py:97-99 | in particular, the first `$<digits>.<digits>` after text containing no `$` is read back as exactly that number |
| CostGate.NoDollarNoPageQuote | defi.py:97 | text without a `$` never yields a page-wide quote |
| CostGate.BareNumberOnlyCountsNextToLabel | defi.py:86-105 | "0.15" next to the label reads as 0.15, while "Cost 0.15" found only page-wide gives the 0.2 fallback |
| CostGate.RejectsIsNotAccepts | defi.py:612 | the loop's reject test is exactly the negation of the probes' accept test `0 < cost <= ceiling` |
| CostGate.RejectedQuoteIsZeroOrTooHigh | defi.py:612 | a rejected quote is either zero or above the ceiling |
| Resolver.FirstSuccess | defi.py:731-738 | a chain stops at the first strategy that goes through; all earlier ones failed; none succeeding means all failed |
| Resolver.ClickAll | defi.py:720-773 | reports a press iff some selector click went through or the script returned true; the first working selector is used, no later one is tried, and a press by the script means all four selectors failed and it returned true |
| Resolver.ClickSwap | defi.py:111-193 | reports a press iff a click strategy went through or the script ran without raising, whatever the script returned; first success short-circuits, and a press by the script means all four click strategies failed |
| Resolver.SwapScriptFalseStillCounts | defi.py:154-189 | a script that found no button still counts as a press |
| Resolver.ClickSwapAsWritten | defi.py:116-144 | as written, no press ever comes from the three locator strategies |
| Resolver.SwapLocatorsDeadAsWritten | defi.py:116-152 | a page where only the data-testid button works: no press as written, a press by strategy 0 as intended |
| Resolver.ClickReverse | defi.py:195-333 | at most three rounds of seven strategies; the reported strategy is the first that went through; the coordinate click is reached only when all 21 attempts failed, and it reports success unless it raises |
| Resolver.ClickReverseAsWritten | defi.py:244-257 | as written, the arrow-symbol strategy never succeeds |
| Resolver.SymbolStrategyDeadAsWritten | defi.py:244-257 | a page where only the arrow-symbol button responds: failure as written, a press in round 0 as intended |
| Resolver.ReverseOkWhenCoordinateClickWorks | defi.py:318-330 | the reversal chain reports success whenever the coordinate click does not raise |
| Resolver.ConfirmTransaction | defi.py:374-395 | reports success whether or not Confirm appeared and whether or not the completion notice appeared |
| Tokens.DetectReadsRenderedLabels | defi.py:345-346 | labels spelling the token names are read back as exactly the pair shown |
| Tokens.DetectIsBiased | defi.py:345-346 | each label is read on its own: the first reads as USDC iff it mentions USDC and as USDT otherwise, the second as USDT iff it mentions USDT and as USDC otherwise; labels naming neither read as USDT -> USDC |
| Tokens.FlipRoundTrip | defi.py:676-678 | swapping from/to twice restores the direction, and a direction stays a direction |
| Tokens.DirectionsAreTheTwo | defi.py:564-571 | the only directions are USDC -> USDT and USDT -> USDC, and each differs from its reverse |
| Reconciler.EnsureLoop | defi.py:337-372 | at most three inspections run; a `False` verdict means all three ran; at most one reversal is pressed per inspection, and none at the inspection that reads the intended order |
| Reconciler.EnsureLoopPresses | defi.py:337-367 | the reversal control is pressed after every inspection that read a mismatched order and after no other (none after an unreadable one, none after the matching one): the chains pressed are exactly those of the mismatched inspections that ran, in order |
| Reconciler.EnsureLoopVerdict | defi.py:337-363 | `True` iff one of the three inspections read the intended order, and then the loop stopped at the first such inspection |
| Reconciler.SuccessfulReversalsDoNotMakeItCorrect | defi.py:351-372 | three mismatched readings give `False` although every reversal, the last included, reported success |
| Reconciler.CorrectVerdictIsTruthful | defi.py:351-363 | on a page whose reported reversals swap the displayed pair, a `True` verdict means the page shows the intended direction |
| Reconciler.ReconcilesWithinTwoInspections | defi.py:337-363 | on such a page, when the displayed pair is a direction, two inspections are readable and the first reversal works, the verdict is `True` within two inspections |
| Reconciler.SurfaceFollowsPresses | defi.py:351-367 | on a page whose reported reversals swap the displayed pair, the final display is the first one reversed once for every chain in the loop's own list of presses that reported success |
| Reconciler.SameTokenDisplayNeverReconciles | defi.py:345-358 | a display read as the same token on both sides can never be reconciled |
| Ledger.TotalCostAppend | defi.py:657-664 | appending a record adds exactly its cost to the total |
| Ledger.TotalCostBounds | defi.py:612-664 | with every recorded cost in (0, ceiling], the total is positive once non-empty and at most count × ceiling |
| TradeLoop.NextBackoff | defi.py:616-625 | after a rejection the counter is in {0, 1, 2}; the 15 s pause is taken iff the rejection came within 10 s of the previous rejection (or the loop start) and brought the counter to 3 |
| TradeLoop.Step | defi.py:582-707 | one iteration keeps counters equal to the ledger and the direction valid; a screenshot fault (`Faulted`) changes nothing, while a settle-wait fault keeps the new record and skips the flip; the gate picks the path; a rejection flips direction, leaves the ledger alone, stamps the rejection time and sets the counter and the pause exactly as the backoff rule computes them from the time since the previous rejection; a trade appends one record for the current direction with the quoted cost, adds it to the total, bumps the count, clears the counter and flips direction unless the settle wait failed |
| TradeLoop.ThreeRapidRejectionsPause | defi.py:612-630 | three rejections each within 10 s of the previous rejection (of `s.lastSwitch` for the first), from a clear counter: no pause, no pause, then the pause with the counter cleared |
| TradeLoop.MissingSignalStillRecorded | defi.py:654-665 | an iteration's outcome does not depend on whether the completion notice appears |
| TradeLoop.Run | defi.py:581-707 | the fold of `Step` while the budget guard holds: it ends early only with the guard failed, and it keeps the counters equal to the ledger |
| TradeLoop.StepKeepsLedgerSound | defi.py:581-664 | an iteration started under the budget guard only appends to the ledger, keeps every record an accepted quote for a real direction, stays within MAX_TRADES, one ceiling past MAX_TOTAL_COST and one ceiling per trade |
| TradeLoop.RunKeepsLedgerSound | defi.py:581-707 | the same for a whole run |
| TradeLoop.FirstTradeGoesStartingWay | defi.py:571-664 | if the first iteration from an empty ledger trades, the first record goes the starting direction |
| TradeLoop.AllowanceIsProduct | defi.py:612-664 | the per-trade allowance summed over n trades is n × ceiling |
| TradeLoop.RunTrades | defi.py:576-707 | the loop computes exactly the fold `Run` of `Step` over the iterations from the initial state; at the end: trade count = number of records, total = sum of record costs; at most MAX_TRADES records; total below MAX_TOTAL_COST + ceiling and at most count × ceiling; every record's cost accepted; it stops early only when the budget guard fails |
| TradeLoop.Bootstrap | defi.py:499-571 | USDC -> USDT iff the first probe accepts; USDT -> USDC iff only the second does; no direction iff neither does |
| TradeLoop.SecondProbeOnlyAfterRejection | defi.py:529-530 | the second probe does not matter once the first accepts |
| TradeLoop.FallbackQuoteStartsUsdcToUsdt | defi.py:512-523 | under the default 0.3 ceiling the 0.2 fallback alone makes the first probe accept |
| TradeLoop.RunBot | defi.py:499-581 | the run ends before the loop iff bootstrap finds no direction; otherwise the result is exactly the fold of the loop step over the iterations from the initial state in the chosen direction, and its first record, if the first iteration trades, goes that way |

## Left out

- Browser and page plumbing: launch, Docker arguments, navigation, the 30-second
  wallet wait, screenshots and `page.mouse`. These appear only as oracle outcomes.
  A failing screenshot is the loop's `screenshotFails`.
- The embedded JavaScript geometry heuristics (defi.py:156-187, 262-305). Each is
  one boolean outcome of its strategy, because they are DOM layout and floating
  point in a foreign runtime.
- `analyze_with_llm`: it is a network call, and its text never gates control flow.
- `extract_balances_from_page`: `main` never calls it.
- `package.py` and `setup.py`: they are archive creation and packaging metadata.
- All sleep and wait durations, including WAIT_BETWEEN_TRADES and the 15 s pause.
  They take no decisions. The pause is reported as the `Rejected(paused)` event.
- Parsing of the environment variables. `Config` holds the parsed values.
- Python floating point. Costs are exact reals, so rounding in `float()` and in the
  running total is not modelled.
- Timestamp formatting of records. The record keeps the clock reading.
- CostGate.DigitRun: `\d` is modelled as the ASCII digits 0-9. Python's `\d` on a
  `str` also matches every other Unicode decimal digit, and `float()` accepts them.
  So a sibling text such as "０.５０" (full-width digits) reads as 0.5 in the
  program but finds no number in the model. The Unicode digit tables are not
  modelled.
- TradeLoop.Step: it calls the intended chain `ClickSwap`, not the as-written one
  of the findings below. The as-written behaviour is the case where the oracle
  reports failure for swap strategies 0-2. The unconstrained oracle includes that
  case, but the model does not force it.
- Reconciler.EnsureLoop: the reversals it presses are the intended chain
  `ClickReverse`, not the as-written one of the findings below. The as-written
  behaviour (defi.py:246-257) is the case where the oracle reports failure for the
  arrow-symbol attempt, index 5 of every round. The unconstrained oracle includes
  that case, but the model does not force it.
- TradeLoop.Step: it does not consume oracles for `ensure_swap_direction`
  (defi.py:587), `click_all_button` (defi.py:601) or the reversal presses
  (defi.py:633-637, 684-697). The loop only logs their results, so they cannot
  change the run state.
- TradeLoop.RunTrades: it runs over a finite sequence of iterations. The program's
  loop may run forever when quotes keep being rejected, so "stops only at budget
  exhaustion" is stated as "stops early only when the budget guard fails".
- TradeLoop.RunTrades: "at most MAX_TRADES records" is stated as
  `tradeCount <= maxTrades || tradeCount == 0`, because a configured negative
  maximum still allows zero records.
- Resolver.ClickAll: `wait_for_timeout` after a successful click is assumed not to
  raise. If it did raise, the source would go on to the next selector after a click
  that had already landed.
- Reconciler.OnSurface: the assumption that a reversal the chain reports as done
  swaps the displayed pair. The program never checks this.
- The bootstrap's `except` branches (defi.py:526-527, 554-555) are not modelled.
  Everything inside them catches its own exceptions, so they cannot fire.

## Findings

| source | as written | input that shows it | evidently intended | confidence | as-written member | corrected member |
|---|---|---|---|---|---|---|
| defi.py:118-138 | `await page.locator(...).first` awaits a Locator object. A Locator is not awaitable in Playwright's async API, so the data-testid, id and text strategies always raise and fall through | a page where only the data-testid Swap button responds and the final `evaluate` raises | each of the three strategies clicks its button when the button is there | medium; not executed (depends on the automation library's API) | Resolver.ClickSwapAsWritten, shown by Resolver.SwapLocatorsDeadAsWritten | Resolver.ClickSwap |
| defi.py:246-254 | the arrow-symbol strategy awaits `page.locator(...).first` in the same way, so every symbol raises and the strategy never succeeds | a page where only a button showing an arrow symbol responds and the coordinate click raises | the strategy clicks a button showing one of the arrow symbols | medium; not executed (depends on the automation library's API) | Resolver.ClickReverseAsWritten, shown by Resolver.SymbolStrategyDeadAsWritten | Resolver.ClickReverse |

=== FILE: cost_gate.dfy ===
/** The cost gate: reading the quoted swap cost off the page
    (`extract_cost_from_page`, defi.py:80-105) and the accept test applied to it
    (defi.py:520, 548, 612). Costs are exact reals. */
module CostGate {
  import opened Wrappers

  /** Returned when neither extraction strategy finds a quoted cost (defi.py:103-105). */
  const FallbackCost: real := 0.2

  predicate IsDigit(c: char) {
    '0' <= c <= '9'
  }

  predicate AllDigits(s: string) {
    forall k | 0 <= k < |s| :: IsDigit(s[k])
  }

  /** Length of the maximal run of digits starting at `i` (what a greedy `\d+` consumes). */
  function DigitRun(s: string, i: nat): (n: nat)
    requires i <= |s|
    ensures i + n <= |s|
    ensures forall k | i <= k < i + n :: IsDigit(s[k])
    ensures i + n == |s| || !IsDigit(s[i + n])
    decreases |s| - i
  {
    if i < |s| && IsDigit(s[i]) then 1 + DigitRun(s, i + 1) else 0
  }

  /** The natural number a string of decimal digits denotes. */
  function Natural(ds: string): nat
    requires AllDigits(ds)
  {
    if |ds| == 0 then 0 else 10 * Natural(ds[..|ds| - 1]) + (ds[|ds| - 1] as int - '0' as int)
  }

  function Pow10(n: nat): (p: nat)
    ensures p > 0
  {
    if n == 0 then 1 else 10 * Pow10(n - 1)
  }

  /** The exact value of the decimal numeral `whole.frac` (Python's `float(...)`
      of the captured group, without binary rounding). */
  function DecimalValue(whole: string, frac: string): (v: real)
    requires AllDigits(whole) && AllDigits(frac)
    ensures Natural(whole) as real <= v < Natural(whole) as real + 1.0
  {
    NaturalBelowPow10(frac);
    ProperFraction(Natural(frac), Pow10(|frac|));
    Natural(whole) as real + Natural(frac) as real / Pow10(|frac|) as real
  }

  lemma ProperFraction(a: nat, b: nat)
    requires a < b
    ensures 0.0 <= a as real / b as real < 1.0
  {
    var q := a as real / b as real;
    assert q * b as real == a as real;
  }

  /** A digit string of length n denotes a number below 10^n. */
  lemma {:induction false} NaturalBelowPow10(ds: string)
    requires AllDigits(ds)
    ensures Natural(ds) < Pow10(|ds|)
  {
    if |ds| > 0 {
      NaturalBelowPow10(ds[..|ds| - 1]);
    }
  }

  /** A `\d+\.\d+` match as Python's greedy matcher produces it: digits on
      positions [i, k), the point at k, digits on (k, j), and no digit right after. */
  ghost predicate DecimalSpan(s: string, i: nat, k: nat, j: nat) {
    && i < k && k + 1 < j <= |s|
    && AllDigits(s[i..k]) && s[k] == '.' && AllDigits(s[k + 1..j])
    && (j == |s| || !IsDigit(s[j]))
  }

  /** The value of the `\d+\.\d+` match starting at `i`, if there is one. */
  function DecimalAt(s: string, i: nat): (v: Option<real>)
    requires i <= |s|
    ensures v.Some? ==> v.value >= 0.0
  {
    var n := DigitRun(s, i);
    if n == 0 || i + n + 1 >= |s| || s[i + n] != '.' then None
    else
      var m := DigitRun(s, i + n + 1);
      if m == 0 then None
      else Some(DecimalValue(s[i..i + n], s[i + n + 1..i + n + 1 + m]))
  }

  /** The match, starting at `i`, of `\$?(\d+\.\d+)` (when `dollarRequired` is
      false) or of `\$(\d+\.\d+)` (when it is true); the value is the captured group. */
  function MatchAt(s: string, i: nat, dollarRequired: bool): (v: Option<real>)
    requires i <= |s|
    ensures v.Some? ==> v.value >= 0.0
    ensures dollarRequired && v.Some? ==> i < |s| && s[i] == '$'
  {
    if i < |s| && s[i] == '$' && DecimalAt(s, i + 1).Some? then DecimalAt(s, i + 1)
    else if dollarRequired then None
    else DecimalAt(s, i)
  }

  /** A match found by a search: where it starts, and the captured number. */
  datatype Hit = Hit(pos: nat, value: real)

  /** Python's `re.search` from position `i`: the leftmost position that matches. */
  function SearchFrom(s: string, i: nat, dollarRequired: bool): (r: Option<Hit>)
    requires i <= |s|
    ensures r.Some? ==> i <= r.value.pos < |s| && MatchAt(s, r.value.pos, dollarRequired) == Some(r.value.value)
    ensures r.Some? ==> forall p | i <= p < r.value.pos :: MatchAt(s, p, dollarRequired).None?
    ensures r.None? ==> forall p | i <= p < |s| :: MatchAt(s, p, dollarRequired).None?
    decreases |s| - i
  {
    if i == |s| then None
    else
      match MatchAt(s, i, dollarRequired)
      case Some(v) => Some(Hit(i, v))
      case None => SearchFrom(s, i + 1, dollarRequired)
  }

  /** `re.search(pattern, s)` followed by `float(match.group(1))`. */
  function Search(s: string, dollarRequired: bool): Option<real> {
    match SearchFrom(s, 0, dollarRequired)
    case Some(h) => Some(h.value)
    case None => None
  }

  /** What the page offers the two extraction strategies. */
  datatype CostPage = CostPage(
    // text of the element right after the first "Cost" label; None when the
    // label lookup raises or the label has no next sibling
    sibling: Option<string>,
    // text of each element matching the page-wide cost pattern, in page
    // order; None where reading an element's text raises
    candidates: seq<Option<string>>)

  /** Which strategy produced a quote. */
  datatype Origin = CostLabel | PageText(index: nat) | Fallback

  datatype Quote = Quote(value: real, origin: Origin)

  /** First strategy: the first `\$?(\d+\.\d+)` number in the Cost label's sibling. */
  function LabelCost(p: CostPage): Option<real> {
    if p.sibling.Some? then Search(p.sibling.value, false) else None
  }

  /** Every candidate before index `j` (from `k` on) could be read. */
  predicate ReadableBefore(cs: seq<Option<string>>, k: nat, j: nat) {
    forall l | k <= l < j && l < |cs| :: cs[l].Some?
  }

  /** Second strategy: scan the candidates in order for a `\$(\d+\.\d+)` number;
      a candidate whose text cannot be read abandons the scan (its exception
      leaves the loop). The hit's position is the candidate's index. */
  function PageTextFrom(cs: seq<Option<string>>, k: nat): (r: Option<Hit>)
    requires k <= |cs|
    ensures r.Some? ==> k <= r.value.pos < |cs| && cs[r.value.pos].Some?
    ensures r.Some? ==> Search(cs[r.value.pos].value, true) == Some(r.value.value)
    ensures r.Some? ==> forall j | k <= j < r.value.pos :: cs[j].Some? && Search(cs[j].value, true).None?
    ensures r.None? ==> forall j | k <= j < |cs| && ReadableBefore(cs, k, j + 1) :: Search(cs[j].value, true).None?
    decreases |cs| - k
  {
    if k == |cs| then None
    else
      match cs[k]
      case None => None
      case Some(text) =>
        match Search(text, true)
        case Some(v) => Some(Hit(k, v))
        case None => PageTextFrom(cs, k + 1)
  }

  /** `extract_cost_from_page`: label strategy, then page-text strategy, then the
      fixed fallback. It is total: no page makes it fail. */
  function ExtractCost(p: CostPage): (q: Quote)
    ensures q.value >= 0.0
    ensures q.origin.CostLabel? <==> p.sibling.Some? && Search(p.sibling.value, false).Some?
    ensures q.origin.CostLabel? ==> Search(p.sibling.value, false) == Some(q.value)
    ensures q.origin.PageText? ==>
              && q.origin.index < |p.candidates|
              && p.candidates[q.origin.index].Some?
              && Search(p.candidates[q.origin.index].value, true) == Some(q.value)
              && forall j | 0 <= j < q.origin.index :: p.candidates[j].Some? && Search(p.candidates[j].value, true).None?
    ensures q.origin.Fallback? ==> q.value == FallbackCost
    ensures q.origin.Fallback? ==>
              forall j | 0 <= j < |p.candidates| && ReadableBefore(p.candidates, 0, j + 1) ::
                Search(p.candidates[j].value, true).None?
  {
    match LabelCost(p)
    case Some(v) => Quote(v, CostLabel)
    case None =>
      match PageTextFrom(p.candidates, 0)
      case Some(h) => Quote(h.value, PageText(h.pos))
      case None => Quote(FallbackCost, Fallback)
  }

  /** A maximal run of digits from `i` ending at `k` is exactly what DigitRun measures. */
  lemma {:induction false} DigitRunIsMaximal(s: string, i: nat, k: nat)
    requires i <= k <= |s|
    requires forall l | i <= l < k :: IsDigit(s[l])
    requires k == |s| || !IsDigit(s[k])
    ensures DigitRun(s, i) == k - i
    decreases k - i
  {
    if i < k {
      DigitRunIsMaximal(s, i + 1, k);
    }
  }

  /** DecimalAt agrees with the declarative greedy-match definition: it finds a
      number exactly where a span exists, and its value is the span's value. */
  lemma DecimalAtIsGreedyMatch(s: string, i: nat)
    requires i <= |s|
    ensures DecimalAt(s, i).Some? <==> exists k: nat, j: nat :: DecimalSpan(s, i, k, j)
    ensures forall k: nat, j: nat | DecimalSpan(s, i, k, j) :: DecimalAt(s, i) == Some(DecimalValue(s[i..k], s[k + 1..j]))
  {
    forall k: nat, j: nat | DecimalSpan(s, i, k, j)
      ensures DecimalAt(s, i) == Some(DecimalValue(s[i..k], s[k + 1..j]))
    {
      DecimalAtFindsSpan(s, i, k, j);
    }
    if DecimalAt(s, i).Some? {
      var n := DigitRun(s, i);
      var m := DigitRun(s, i + n + 1);
      assert DecimalSpan(s, i, i + n, i + n + 1 + m);
    }
  }

  lemma DecimalAtFindsSpan(s: string, i: nat, k: nat, j: nat)
    requires i <= |s| && DecimalSpan(s, i, k, j)
    ensures DecimalAt(s, i) == Some(DecimalValue(s[i..k], s[k + 1..j]))
  {
    assert forall l | i <= l < k :: s[l] == s[i..k][l - i];
    DigitRunIsMaximal(s, i, k);
    assert forall l | k + 1 <= l < j :: s[l] == s[k + 1..j][l - k - 1];
    DigitRunIsMaximal(s, k + 1, j);
  }

  /** A cost the page writes as `<whole>.<frac>`, with or without a leading `$`,
      in the Cost label's sibling is read back exactly by the first strategy,
      whatever else the page shows. */
  lemma LabelQuoteRoundTrip(dollar: bool, whole: string, frac: string, tail: string, candidates: seq<Option<string>>)
    requires |whole| > 0 && |frac| > 0 && AllDigits(whole) && AllDigits(frac)
    requires tail == [] || !IsDigit(tail[0])
    ensures ExtractCost(CostPage(Some((if dollar then "$" else "") + whole + "." + frac + tail), candidates))
            == Quote(DecimalValue(whole, frac), CostLabel)
  {
    var d := if dollar then 1 else 0;
    var s := (if dollar then "$" else "") + whole + "." + frac + tail;
    var k := d + |whole|;
    var j := k + 1 + |frac|;
    assert s[d..k] == whole;
    assert s[k + 1..j] == frac;
    assert DecimalSpan(s, d, k, j);
    DecimalAtFindsSpan(s, d, k, j);
    assert MatchAt(s, 0, false) == Some(DecimalValue(whole, frac));
  }

  /** A page-wide element reading `<prefix>$<whole>.<frac>...`, with no match
      of the page-wide pattern starting inside the prefix, is read back exactly
      by the second strategy when the label strategy finds nothing. */
  lemma PageQuoteRoundTrip(sibling: Option<string>, prefix: string, whole: string, frac: string, tail: string, rest: seq<Option<string>>)
    requires sibling.None? || Search(sibling.value, false).None?
    requires forall p | 0 <= p < |prefix| :: MatchAt(prefix + "$" + whole + "." + frac + tail, p, true).None?
    requires |whole| > 0 && |frac| > 0 && AllDigits(whole) && AllDigits(frac)
    requires tail == [] || !IsDigit(tail[0])
    ensures ExtractCost(CostPage(sibling, [Some(prefix + "$" + whole + "." + frac + tail)] + rest))
            == Quote(DecimalValue(whole, frac), PageText(0))
  {
    DollarQuoteFound(prefix, whole, frac, tail);
  }

  /** The page-wide pattern reads the first `$`-number of a text: the one at
      the end of a prefix inside which no match starts. */
  lemma DollarQuoteFound(prefix: string, whole: string, frac: string, tail: string)
    requires forall p | 0 <= p < |prefix| :: MatchAt(prefix + "$" + whole + "." + frac + tail, p, true).None?
    requires |whole| > 0 && |frac| > 0 && AllDigits(whole) && AllDigits(frac)
    requires tail == [] || !IsDigit(tail[0])
    ensures Search(prefix + "$" + whole + "." + frac + tail, true) == Some(DecimalValue(whole, frac))
  {
    DollarNumberMatches(prefix, whole, frac, tail);
  }

  /** In particular a prefix without any `$` holds no match. */
  lemma DollarFreePrefixQuoteFound(prefix: string, whole: string, frac: string, tail: string)
    requires '$' !in prefix
    requires |whole| > 0 && |frac| > 0 && AllDigits(whole) && AllDigits(frac)
    requires tail == [] || !IsDigit(tail[0])
    ensures Search(prefix + "$" + whole + "." + frac + tail, true) == Some(DecimalValue(whole, frac))
  {
    var s := prefix + "$" + whole + "." + frac + tail;
    NoMatchInsideDollarFreePrefix(prefix, s[|prefix|..]);
    assert s == prefix + s[|prefix|..];
    DollarQuoteFound(prefix, whole, frac, tail);
  }

  /** The `$`-pattern matches where the `$` of `$<whole>.<frac>` stands. */
  lemma DollarNumberMatches(prefix: string, whole: string, frac: string, tail: string)
    requires |whole| > 0 && |frac| > 0 && AllDigits(whole) && AllDigits(frac)
    requires tail == [] || !IsDigit(tail[0])
    ensures MatchAt(prefix + "$" + whole + "." + frac + tail, |prefix|, true) == Some(DecimalValue(whole, frac))
  {
    var s := prefix + "$" + whole + "." + frac + tail;
    var d := |prefix| + 1;
    var k := d + |whole|;
    var j := k + 1 + |frac|;
    assert s[d..k] == whole;
    assert s[k + 1..j] == frac;
    assert DecimalSpan(s, d, k, j);
    DecimalAtFindsSpan(s, d, k, j);
  }

  /** The `$`-pattern cannot match at a position holding no `$`. */
  lemma NoMatchInsideDollarFreePrefix(prefix: string, rest: string)
    requires '$' !in prefix
    ensures forall p | 0 <= p < |prefix| :: MatchAt(prefix + rest, p, true).None?
  {
    forall p | 0 <= p < |prefix|
      ensures MatchAt(prefix + rest, p, true).None?
    {
      assert (prefix + rest)[p] == prefix[p];
    }
  }

  /** Text without a `$` never yields a page-wide quote: the second strategy's
      pattern needs the currency sign that the first strategy's makes optional. */
  lemma NoDollarNoPageQuote(text: string)
    requires '$' !in text
    ensures Search(text, true).None?
  {
    if SearchFrom(text, 0, true).Some? {
      var h := SearchFrom(text, 0, true).value;
      assert text[h.pos] in text;
    }
  }

  /** "0.15" next to the Cost label is read as 0.15, while the same words met
      only in page-wide text ("Cost 0.15", no `$`) give the 0.2 fallback. */
  lemma BareNumberOnlyCountsNextToLabel()
    ensures ExtractCost(CostPage(Some("0.15"), [])) == Quote(0.15, CostLabel)
    ensures ExtractCost(CostPage(None, [Some("Cost 0.15")])) == Quote(FallbackCost, Fallback)
  {
    assert AllDigits("0") && AllDigits("15");
    LabelQuoteRoundTrip(false, "0", "15", "", []);
    assert "" + "0" + "." + "15" + "" == "0.15";
    FifteenHundredths();
    NoDollarNoPageQuote("Cost 0.15");
  }

  lemma FifteenHundredths()
    ensures DecimalValue("0", "15") == 0.15
  {
    assert Natural("1") == 1;
    assert Natural("15") == 15;
    assert Pow10(2) == 100;
  }

  /** A quote that was extracted at all is never negative, so of the loop's two
      rejection reasons `cost <= 0` only fires on a zero quote. */
  lemma RejectedQuoteIsZeroOrTooHigh(p: CostPage, ceiling: real)
    requires Rejects(ExtractCost(p).value, ceiling)
    ensures ExtractCost(p).value == 0.0 || ExtractCost(p).value > ceiling
  {
  }

  /** Accept test of both bootstrap probes (defi.py:520, 548). */
  predicate Accepts(cost: real, ceiling: real) {
    0.0 < cost <= ceiling
  }

  /** Reject test of the trade loop (defi.py:612). */
  predicate Rejects(cost: real, ceiling: real) {
    cost <= 0.0 || cost > ceiling
  }

  /** The loop rejects exactly the costs the probes would not accept. */
  lemma RejectsIsNotAccepts(cost: real, ceiling: real)
    ensures Rejects(cost, ceiling) <==> !Accepts(cost, ceiling)
  {
  }
}

=== FILE: ledger.dfy ===
/** The transaction ledger: the append-only list of completed swaps
    (`transactions`, defi.py:26, appended at defi.py:657-662) and its cost total. */
module Ledger {
  import opened Tokens

  /** One completed swap. `time` is the wall-clock reading taken when it was
      recorded (the source formats it as text; the format is not modelled). */
  datatype Record = Record(time: real, from: Token, to: Token, cost: real)

  /** Sum of the recorded costs, as the summary reports it. */
  function TotalCost(ledger: seq<Record>): real {
    if |ledger| == 0 then 0.0 else TotalCost(ledger[..|ledger| - 1]) + ledger[|ledger| - 1].cost
  }

  /** Appending a record adds exactly its cost to the total. */
  lemma TotalCostAppend(ledger: seq<Record>, r: Record)
    ensures TotalCost(ledger + [r]) == TotalCost(ledger) + r.cost
  {
    assert (ledger + [r])[..|ledger|] == ledger;
  }

  /** When every recorded cost lies in (0, ceiling], the total lies in
      [0, |ledger| * ceiling], and is positive once anything is recorded. */
  lemma {:induction false} TotalCostBounds(ledger: seq<Record>, ceiling: real)
    requires forall k | 0 <= k < |ledger| :: 0.0 < ledger[k].cost <= ceiling
    ensures 0.0 <= TotalCost(ledger) <= |ledger| as real * ceiling
    ensures |ledger| > 0 ==> TotalCost(ledger) > 0.0
  {
    if |ledger| > 0 {
      var init := ledger[..|ledger| - 1];
      TotalCostBounds(init, ceiling);
      assert (|init| + 1) as real * ceiling == |init| as real * ceiling + ceiling;
    }
  }
}

=== FILE: reconciler.dfy ===
/** The direction reconciler, `ensure_swap_direction` (defi.py:335-372): up to
    three inspections of the displayed token order, pressing the reversal
    control after each mismatch. The first half models it against label texts
    given by the page oracle; the second half drives it against a page whose
    displayed pair each successful reversal swaps, and proves what its verdict
    then means. */
module Reconciler {
  import opened Wrappers
  import opened Tokens
  import opened Resolver

  /** Inspections per call (defi.py:337). */
  const MaxAttempts: nat := 3

  /** One inspection of the token labels: the texts of the first two elements
      naming a token, or nothing usable (fewer than two such elements, or a
      lookup that raised). */
  datatype Inspection = Unreadable | Labels(first: string, second: string)

  /** What the page does in one attempt: what the inspection sees, and how the
      reversal chain would fare if the attempt presses it. */
  datatype Attempt = Attempt(view: Inspection, reverse: ReversePage)

  /** The verdict (`True` only after an inspection saw the intended order), how
      many inspections ran, and the reversal chains pressed, in order. */
  datatype Reconciled = Reconciled(correct: bool, inspections: nat, reversals: seq<ReverseClick>)

  /** Attempt `k` of the oracle; an exhausted oracle shows nothing readable. */
  function At(attempts: seq<Attempt>, k: nat): Attempt {
    if k < |attempts| then attempts[k] else Attempt(Unreadable, ReversePage([], false))
  }

  /** What follows the current element of a per-attempt sequence. */
  function Later<T>(s: seq<T>): seq<T> {
    if |s| > 0 then s[1..] else []
  }

  /** The token order inspection `k` reads, if its labels could be read. */
  function Observed(attempts: seq<Attempt>, k: nat): Option<Pair> {
    match At(attempts, k).view
    case Unreadable => None
    case Labels(a, b) => Some(Detect(a, b))
  }

  lemma ObservedLater(attempts: seq<Attempt>, k: nat)
    ensures Observed(Later(attempts), k) == Observed(attempts, k + 1)
  {
  }

  /** The reconciliation loop with `left` inspections still allowed. */
  function EnsureLoop(intended: Pair, attempts: seq<Attempt>, left: nat): (r: Reconciled)
    ensures r.inspections <= left
    ensures !r.correct ==> r.inspections == left
    ensures |r.reversals| < r.inspections || (|r.reversals| == r.inspections && !r.correct)
    decreases left
  {
    if left == 0 then Reconciled(false, 0, [])
    else
      var rest := EnsureLoop(intended, Later(attempts), left - 1);
      match At(attempts, 0).view
      case Unreadable => rest.(inspections := rest.inspections + 1)
      case Labels(a, b) =>
        if Detect(a, b) == intended then Reconciled(true, 1, [])
        else rest.(inspections := rest.inspections + 1, reversals := [ClickReverse(At(attempts, 0).reverse)] + rest.reversals)
  }

  /** The verdict is `True` iff one of the allowed inspections read the
      intended order, and then the loop stopped at the first such inspection. */
  lemma {:induction false} EnsureLoopVerdict(intended: Pair, attempts: seq<Attempt>, left: nat)
    ensures var r := EnsureLoop(intended, attempts, left);
            && (r.correct <==> exists k | 0 <= k < left :: Observed(attempts, k) == Some(intended))
            && (r.correct ==> 0 < r.inspections && Observed(attempts, r.inspections - 1) == Some(intended))
            && (r.correct ==> forall k | 0 <= k < r.inspections - 1 :: Observed(attempts, k) != Some(intended))
    decreases left
  {
    if left > 0 {
      EnsureLoopVerdict(intended, Later(attempts), left - 1);
      forall k | 0 <= k < left - 1
        ensures Observed(Later(attempts), k) == Observed(attempts, k + 1)
      {
        ObservedLater(attempts, k);
      }
      forall k | 1 <= k < left
        ensures Observed(attempts, k) == Observed(Later(attempts), k - 1)
      {
        ObservedLater(attempts, k - 1);
      }
      match At(attempts, 0).view
      case Unreadable =>
        assert Observed(attempts, 0).None?;
      case Labels(a, b) =>
        assert Observed(attempts, 0) == Some(Detect(a, b));
    }
  }

  /** Whether inspection `k` read an order, and not the intended one: the
      inspections after which the reversal control is pressed. */
  predicate MismatchAt(intended: Pair, attempts: seq<Attempt>, k: nat) {
    Observed(attempts, k).Some? && Observed(attempts, k) != Some(intended)
  }

  /** The reversal chains pressed during the first `n` inspections, in order:
      one after each inspection that read a mismatched order, none after an
      unreadable one (defi.py:351-367). */
  function PressedBefore(intended: Pair, attempts: seq<Attempt>, n: nat): seq<ReverseClick> {
    if n == 0 then []
    else PressedBefore(intended, attempts, n - 1)
         + (if MismatchAt(intended, attempts, n - 1) then [ClickReverse(At(attempts, n - 1).reverse)] else [])
  }

  lemma AtLater(attempts: seq<Attempt>, k: nat)
    ensures At(Later(attempts), k) == At(attempts, k + 1)
  {
  }

  /** The presses of `n + 1` inspections are those of the first inspection
      followed by those of the `n` after it. */
  lemma {:induction false} PressedBeforeLater(intended: Pair, attempts: seq<Attempt>, n: nat)
    ensures PressedBefore(intended, attempts, n + 1)
            == (if MismatchAt(intended, attempts, 0) then [ClickReverse(At(attempts, 0).reverse)] else [])
               + PressedBefore(intended, Later(attempts), n)
    decreases n
  {
    if n > 0 {
      PressedBeforeLater(intended, attempts, n - 1);
      AtLater(attempts, n - 1);
      ObservedLater(attempts, n - 1);
    }
  }

  /** The loop presses the reversal control after every inspection that read
      a mismatched order and after no other inspection: the chains it pressed
      are exactly those of the mismatched inspections that ran, in order. */
  lemma {:induction false} EnsureLoopPresses(intended: Pair, attempts: seq<Attempt>, left: nat)
    ensures var r := EnsureLoop(intended, attempts, left);
            r.reversals == PressedBefore(intended, attempts, r.inspections)
    decreases left
  {
    if left > 0 {
      var rest := EnsureLoop(intended, Later(attempts), left - 1);
      EnsureLoopPresses(intended, Later(attempts), left - 1);
      PressedBeforeLater(intended, attempts, rest.inspections);
      match At(attempts, 0).view
      case Unreadable =>
        assert !MismatchAt(intended, attempts, 0);
      case Labels(a, b) =>
        assert Observed(attempts, 0) == Some(Detect(a, b));
    }
  }

  /** `ensure_swap_direction(page, from, to)`. */
  function EnsureSwapDirection(intended: Pair, attempts: seq<Attempt>): Reconciled {
    EnsureLoop(intended, attempts, MaxAttempts)
  }

  /** The verdict depends only on what the inspections read: three mismatched
      readings give `False` even when every reversal, the last included,
      reported success. */
  lemma SuccessfulReversalsDoNotMakeItCorrect()
    ensures var a := Attempt(Labels("USDT", "USDC"), ReversePage([true], false));
            var r := EnsureSwapDirection(UsdcToUsdt, [a, a, a]);
            && !r.correct && r.inspections == MaxAttempts
            && r.reversals == [ByStrategy(0, 0), ByStrategy(0, 0), ByStrategy(0, 0)]
  {
    DetectReadsRenderedLabels(UsdtToUsdc);
    assert Detect("USDT", "USDC") == UsdtToUsdc;
    var a := Attempt(Labels("USDT", "USDC"), ReversePage([true], false));
    assert ClickReverse(a.reverse) == ByStrategy(0, 0) by {
      assert Succeeds(a.reverse.attempts, 0);
    }
  }

  /** The labels a page shows for a displayed pair, when they can be read. */
  function Render(shown: Pair, readable: bool): Inspection {
    if readable then Labels(Name(shown.from), Name(shown.to)) else Unreadable
  }

  /** A reconciliation run against a page that displays a pair.  */
  datatype SurfaceRun = SurfaceRun(attempts: seq<Attempt>, final: Pair)

  /** Whether the current inspection can be read. */
  predicate ReadableNow(readable: seq<bool>) {
    |readable| > 0 && readable[0]
  }

  /** How the current attempt's reversal chain behaves. */
  function ReverseNow(reverses: seq<ReversePage>): ReversePage {
    if |reverses| > 0 then reverses[0] else ReversePage([], false)
  }

  /** The pair displayed after a mismatched attempt: swapped iff the labels
      were read (so the reversal was pressed) and the chain reported success.
      `SurfaceFollowsPresses` shows these are exactly the loop's own presses. */
  function AfterMismatch(shown: Pair, readable: seq<bool>, reverses: seq<ReversePage>): Pair {
    if ReadableNow(readable) && ClickReverse(ReverseNow(reverses)).Ok() then shown.Flip() else shown
  }

  /** The attempts a page produces while the reconciler works on it, and the
      pair it displays at the end. Inspection `k` can be read iff
      `readable[k]`; the reversal chain of attempt `k` behaves as `reverses[k]`.
      Assumed here and never checked by the program: a reversal the chain
      reports as done swaps the displayed pair. */
  function OnSurface(shown: Pair, intended: Pair, readable: seq<bool>, reverses: seq<ReversePage>, left: nat): (r: SurfaceRun)
    ensures |r.attempts| <= left
    decreases left
  {
    if left == 0 then SurfaceRun([], shown)
    else
      var here := Attempt(Render(shown, ReadableNow(readable)), ReverseNow(reverses));
      if ReadableNow(readable) && shown == intended then SurfaceRun([here], shown)
      else
        var later := OnSurface(AfterMismatch(shown, readable, reverses), intended,
                               Later(readable), Later(reverses), left - 1);
        SurfaceRun([here] + later.attempts, later.final)
  }

  /** An attempt whose inspection did not read the intended order leaves the
      verdict to the remaining inspections. */
  lemma MismatchDefersVerdict(intended: Pair, attempts: seq<Attempt>, left: nat)
    requires left > 0 && Observed(attempts, 0) != Some(intended)
    ensures EnsureLoop(intended, attempts, left).correct == EnsureLoop(intended, Later(attempts), left - 1).correct
  {
  }

  /** One mismatched attempt on the page: its inspection does not read the
      intended order, and the rest of the run is the run from the pair
      displayed after it. */
  lemma SurfaceMismatchStep(shown: Pair, intended: Pair, readable: seq<bool>, reverses: seq<ReversePage>, left: nat)
    requires left > 0 && !(ReadableNow(readable) && shown == intended)
    ensures var run := OnSurface(shown, intended, readable, reverses, left);
            var later := OnSurface(AfterMismatch(shown, readable, reverses), intended, Later(readable), Later(reverses), left - 1);
            && Observed(run.attempts, 0) != Some(intended)
            && Later(run.attempts) == later.attempts
            && run.final == later.final
  {
    DetectReadsRenderedLabels(shown);
  }

  /** After a mismatched attempt, both the verdict and the final display are
      those of the run from the pair displayed after it. */
  lemma MismatchDefersToRest(shown: Pair, intended: Pair, readable: seq<bool>, reverses: seq<ReversePage>, left: nat)
    requires left > 0 && !(ReadableNow(readable) && shown == intended)
    ensures var run := OnSurface(shown, intended, readable, reverses, left);
            var later := OnSurface(AfterMismatch(shown, readable, reverses), intended, Later(readable), Later(reverses), left - 1);
            && EnsureLoop(intended, run.attempts, left).correct == EnsureLoop(intended, later.attempts, left - 1).correct
            && run.final == later.final
  {
    var run := OnSurface(shown, intended, readable, reverses, left);
    SurfaceMismatchStep(shown, intended, readable, reverses, left);
    MismatchDefersVerdict(intended, run.attempts, left);
  }

  /** A pair reversed `n` times. */
  function FlippedTimes(p: Pair, n: nat): Pair
    decreases n
  {
    if n == 0 then p else FlippedTimes(p.Flip(), n - 1)
  }

  /** How many of the pressed reversal chains reported success. */
  function Succeeded(clicks: seq<ReverseClick>): nat {
    if |clicks| == 0 then 0 else (if clicks[0].Ok() then 1 else 0) + Succeeded(clicks[1..])
  }

  /** On such a page the display changes only through the reversals the loop
      itself presses: the final pair is the first one reversed once for every
      chain in the loop's list of presses that reported success. */
  lemma {:induction false} SurfaceFollowsPresses(shown: Pair, intended: Pair, readable: seq<bool>, reverses: seq<ReversePage>, left: nat)
    ensures var run := OnSurface(shown, intended, readable, reverses, left);
            run.final == FlippedTimes(shown, Succeeded(EnsureLoop(intended, run.attempts, left).reversals))
    decreases left
  {
    if left > 0 {
      var run := OnSurface(shown, intended, readable, reverses, left);
      DetectReadsRenderedLabels(shown);
      if ReadableNow(readable) && shown == intended {
        assert Observed(run.attempts, 0) == Some(intended);
      } else {
        var after := AfterMismatch(shown, readable, reverses);
        SurfaceMismatchStep(shown, intended, readable, reverses, left);
        SurfaceFollowsPresses(after, intended, Later(readable), Later(reverses), left - 1);
        var rest := EnsureLoop(intended, Later(run.attempts), left - 1);
        var r := EnsureLoop(intended, run.attempts, left);
        if ReadableNow(readable) {
          var pressed := ClickReverse(ReverseNow(reverses));
          assert r.reversals == [pressed] + rest.reversals;
          assert ([pressed] + rest.reversals)[1..] == rest.reversals;
        } else {
          assert r.reversals == rest.reversals;
        }
      }
    }
  }

  /** On such a page a `True` verdict is truthful: the page ends up displaying
      the intended pair. */
  lemma {:induction false} CorrectVerdictIsTruthful(shown: Pair, intended: Pair, readable: seq<bool>, reverses: seq<ReversePage>, left: nat)
    ensures var run := OnSurface(shown, intended, readable, reverses, left);
            EnsureLoop(intended, run.attempts, left).correct ==> run.final == intended
    decreases left
  {
    if left > 0 && !(ReadableNow(readable) && shown == intended) {
      MismatchDefersToRest(shown, intended, readable, reverses, left);
      CorrectVerdictIsTruthful(AfterMismatch(shown, readable, reverses), intended, Later(readable), Later(reverses), left - 1);
    }
  }

  /** On such a page, when the page shows a real direction, the first two
      inspections can be read and the first reversal goes through, the
      reconciler reaches the intended direction within two inspections. */
  lemma ReconcilesWithinTwoInspections(shown: Pair, intended: Pair, readable: seq<bool>, reverses: seq<ReversePage>)
    requires shown.IsDirection() && intended.IsDirection()
    requires |readable| >= 2 && readable[0] && readable[1]
    requires |reverses| >= 1 && ClickReverse(reverses[0]).Ok()
    ensures var r := EnsureSwapDirection(intended, OnSurface(shown, intended, readable, reverses, MaxAttempts).attempts);
            r.correct && r.inspections <= 2
  {
    var run := OnSurface(shown, intended, readable, reverses, MaxAttempts);
    DirectionsAgreeOrAreReversed(shown, intended);
    DetectReadsRenderedLabels(shown);
    if shown == intended {
      assert Observed(run.attempts, 0) == Some(intended);
    } else {
      DetectReadsRenderedLabels(shown.Flip());
      assert Observed(run.attempts, 0) == Some(shown);
      assert Observed(run.attempts, 1) == Some(intended);
    }
  }

  /** A page showing the same token on both sides stays that way under
      reversal, so the reconciler can never report the intended direction. */
  lemma {:induction false} SameTokenDisplayNeverReconciles(shown: Pair, intended: Pair, readable: seq<bool>, reverses: seq<ReversePage>, left: nat)
    requires shown.from == shown.to && intended.IsDirection()
    ensures !EnsureLoop(intended, OnSurface(shown, intended, readable, reverses, left).attempts, left).correct
    decreases left
  {
    SameTokenDisplayStays(shown, intended, readable, reverses, left);
    CorrectVerdictIsTruthful(shown, intended, readable, reverses, left);
  }

  lemma {:induction false} SameTokenDisplayStays(shown: Pair, intended: Pair, readable: seq<bool>, reverses: seq<ReversePage>, left: nat)
    requires shown.from == shown.to
    ensures OnSurface(shown, intended, readable, reverses, left).final == shown
    decreases left
  {
    if left > 0 {
      SameTokenDisplayStays(shown, intended, Later(readable), Later(reverses), left - 1);
    }
  }
}

=== FILE: resolver.dfy ===
/** The ordered strategy chains that press on-page controls
    (`click_all_button` defi.py:720-773, `click_swap_button` defi.py:111-193,
    `click_reverse_button` defi.py:195-333) and `confirm_transaction`
    (defi.py:374-395). The page is an oracle: for each strategy attempt, in the
    order the chain issues them, whether that attempt's click went through
    without raising. */
module Resolver {
  import opened Wrappers

  /** Attempt `k` of a chain succeeds. An oracle shorter than the chain means
      the later attempts found nothing to click. */
  predicate Succeeds(outcomes: seq<bool>, k: nat) {
    k < |outcomes| && outcomes[k]
  }

  /** The first successful attempt in [lo, hi), if any. */
  function FirstSuccess(outcomes: seq<bool>, lo: nat, hi: nat): (r: Option<nat>)
    ensures r.Some? ==> lo <= r.value < hi && Succeeds(outcomes, r.value)
    ensures r.Some? ==> forall j | lo <= j < r.value :: !Succeeds(outcomes, j)
    ensures r.None? ==> forall j | lo <= j < hi :: !Succeeds(outcomes, j)
    decreases hi - lo
  {
    if hi <= lo then None
    else if Succeeds(outcomes, lo) then Some(lo)
    else FirstSuccess(outcomes, lo + 1, hi)
  }

  /** What a `page.evaluate` of an embedded script did: it raised, or it ran
      to the end and returned a boolean. */
  datatype Script = ScriptRaises | ScriptReturns(value: bool)

  /** How a chain ended: pressed by the strategy with the given index, or not at all. */
  datatype Click = Clicked(strategy: nat) | NotClicked

  /** A chain's outcome together with how many strategies it invoked, in order. */
  datatype Chain = Chain(click: Click, attempts: nat)

  /** The selectors of the select-maximum control, tried in this order (defi.py:724-729). */
  const AllSelectors: seq<string> := [
    "button:has-text(\"ALL\")",
    "button.border.border-border-secondary:has(span:text(\"ALL\"))",
    "button:has(span:text(\"ALL\"))",
    "button:has-text(\"MAX\")"
  ]

  /** The page as the select-maximum chain sees it: one outcome per selector
      click, then the outcome of the fallback script. */
  datatype AllButtonPage = AllButtonPage(selectorClicks: seq<bool>, script: Script)

  /** `click_all_button`: the selectors in order, stopping at the first click
      that does not raise; then the script, whose boolean is the answer. */
  function ClickAll(p: AllButtonPage): (r: Chain)
    ensures r.click.Clicked? <==>
              (exists k | 0 <= k < |AllSelectors| :: Succeeds(p.selectorClicks, k))
              || p.script == ScriptReturns(true)
    ensures r.click.Clicked? ==> r.attempts == r.click.strategy + 1
    ensures r.click.Clicked? && r.click.strategy < |AllSelectors| ==>
              && Succeeds(p.selectorClicks, r.click.strategy)
              && forall j | 0 <= j < r.click.strategy :: !Succeeds(p.selectorClicks, j)
    ensures r.click.Clicked? ==> r.click.strategy <= |AllSelectors|
    ensures r.click == Clicked(|AllSelectors|) ==>
              && p.script == ScriptReturns(true)
              && forall j | 0 <= j < |AllSelectors| :: !Succeeds(p.selectorClicks, j)
    ensures r.click.NotClicked? ==> r.attempts == |AllSelectors| + 1
  {
    match FirstSuccess(p.selectorClicks, 0, |AllSelectors|)
    case Some(k) => Chain(Clicked(k), k + 1)
    case None =>
      if p.script == ScriptReturns(true) then Chain(Clicked(|AllSelectors|), |AllSelectors| + 1)
      else Chain(NotClicked, |AllSelectors| + 1)
  }

  /** Number of click strategies of the primary action before its script fallback:
      data-testid, id, button text, class and text (defi.py:116-152). */
  const SwapStrategies: nat := 4

  /** The page as the primary-action chain sees it. */
  datatype SwapPage = SwapPage(strategyClicks: seq<bool>, script: Script)

  /** `click_swap_button`: the four click strategies in order, then the script.
      The script strategy reports success whenever `evaluate` does not raise,
      even when the script itself found no button and returned false. */
  function ClickSwap(p: SwapPage): (r: Chain)
    ensures r.click.Clicked? <==>
              (exists k | 0 <= k < SwapStrategies :: Succeeds(p.strategyClicks, k))
              || p.script.ScriptReturns?
    ensures r.click.Clicked? ==> r.click.strategy <= SwapStrategies && r.attempts == r.click.strategy + 1
    ensures r.click.Clicked? && r.click.strategy < SwapStrategies ==>
              && Succeeds(p.strategyClicks, r.click.strategy)
              && forall j | 0 <= j < r.click.strategy :: !Succeeds(p.strategyClicks, j)
    ensures r.click == Clicked(SwapStrategies) ==>
              && p.script.ScriptReturns?
              && forall j | 0 <= j < SwapStrategies :: !Succeeds(p.strategyClicks, j)
    ensures r.click.NotClicked? ==> r.attempts == SwapStrategies + 1
  {
    match FirstSuccess(p.strategyClicks, 0, SwapStrategies)
    case Some(k) => Chain(Clicked(k), k + 1)
    case None =>
      if p.script.ScriptReturns? then Chain(Clicked(SwapStrategies), SwapStrategies + 1)
      else Chain(NotClicked, SwapStrategies + 1)
  }

  /** The primary action is reported pressed even when the fallback script
      found nothing to press. */
  lemma SwapScriptFalseStillCounts()
    ensures ClickSwap(SwapPage([], ScriptReturns(false))) == Chain(Clicked(SwapStrategies), SwapStrategies + 1)
  {
  }

  /** The first three primary-action strategies await a locator object, which
      is not awaitable in Python, so each raises before clicking: as written
      they can never succeed, whatever the page shows (defi.py:118, 128, 138). */
  function DeadLocatorAttempts(outcomes: seq<bool>): (r: seq<bool>)
    ensures |r| == |outcomes|
    ensures forall k | 0 <= k < |r| :: r[k] == (outcomes[k] && k >= 3)
  {
    seq(|outcomes|, k requires 0 <= k < |outcomes| => outcomes[k] && k >= 3)
  }

  /** `click_swap_button` as written, with its three locator strategies dead. */
  function ClickSwapAsWritten(p: SwapPage): (r: Chain)
    ensures r.click.Clicked? ==> r.click.strategy >= 3
    ensures r.click.Clicked? <==> Succeeds(p.strategyClicks, 3) || p.script.ScriptReturns?
  {
    var masked := DeadLocatorAttempts(p.strategyClicks);
    assert forall k | 0 <= k < 3 :: !Succeeds(masked, k);
    assert Succeeds(masked, 3) == Succeeds(p.strategyClicks, 3);
    ClickSwap(SwapPage(masked, p.script))
  }

  /** A page whose data-testid button works, while the class-and-text selector
      and the script fail: the chain as written reports no click, the intended
      chain presses the button with its first strategy. */
  lemma SwapLocatorsDeadAsWritten()
    ensures ClickSwapAsWritten(SwapPage([true, false, false, false], ScriptRaises)).click == NotClicked
    ensures ClickSwap(SwapPage([true, false, false, false], ScriptRaises)).click == Clicked(0)
  {
  }

  /** Rounds of the reversal chain before its coordinate click (defi.py:203). */
  const ReverseRounds: nat := 3

  /** The reversal chain's strategies within one round, in order (defi.py:204-313). */
  const ReverseStrategies: seq<string> := [
    "exact class selector with arrow icon",
    "button containing the arrow icon",
    "data-testid switch-tokens button",
    "absolute-position class selector",
    "button containing the arrow svg",
    "button showing an arrow symbol",
    "nearest small button to the upper centre"
  ]

  /** Index of the arrow-symbol strategy within a round. */
  const SymbolStrategy: nat := 5

  /** The page as the reversal chain sees it: the outcome of attempt
      `round * 7 + strategy` for each of the 21 attempts, then whether the final
      coordinate click raised. */
  datatype ReversePage = ReversePage(attempts: seq<bool>, coordinateClick: bool)

  /** How the reversal chain ended. A coordinate click counts as success
      although nothing checks that it hit the control. */
  datatype ReverseClick = ByStrategy(round: nat, strategy: nat) | ByCoordinates | ReverseFailed {
    predicate Ok() {
      !ReverseFailed?
    }
  }

  /** No strategy attempt of any round went through. */
  predicate NoRoundClicks(p: ReversePage) {
    forall j | 0 <= j < ReverseRounds * |ReverseStrategies| :: !Succeeds(p.attempts, j)
  }

  /** `click_reverse_button`: up to three rounds of seven strategies, stopping
      at the first that goes through, then a click at fixed page coordinates. */
  function ClickReverse(p: ReversePage): (r: ReverseClick)
    ensures r.ByStrategy? ==> r.round < ReverseRounds && r.strategy < |ReverseStrategies|
    ensures r.ByStrategy? ==> Succeeds(p.attempts, r.round * |ReverseStrategies| + r.strategy)
    ensures r.ByStrategy? ==>
              forall j | 0 <= j < r.round * |ReverseStrategies| + r.strategy :: !Succeeds(p.attempts, j)
    ensures r.ByCoordinates? <==> NoRoundClicks(p) && p.coordinateClick
    ensures r.ReverseFailed? <==> NoRoundClicks(p) && !p.coordinateClick
  {
    var n := |ReverseStrategies|;
    match FirstSuccess(p.attempts, 0, ReverseRounds * n)
    case Some(k) => ByStrategy(k / n, k % n)
    case None => if p.coordinateClick then ByCoordinates else ReverseFailed
  }

  /** As written, the arrow-symbol strategy awaits a locator object and raises
      on every symbol, so it never succeeds in any round (defi.py:246-257). */
  function DeadSymbolAttempts(outcomes: seq<bool>): (r: seq<bool>)
    ensures |r| == |outcomes|
    ensures forall k | 0 <= k < |r| :: r[k] == (outcomes[k] && k % |ReverseStrategies| != SymbolStrategy)
  {
    seq(|outcomes|, k requires 0 <= k < |outcomes| => outcomes[k] && k % |ReverseStrategies| != SymbolStrategy)
  }

  /** `click_reverse_button` as written, with its symbol strategy dead. */
  function ClickReverseAsWritten(p: ReversePage): (r: ReverseClick)
    ensures r.ByStrategy? ==> r.strategy != SymbolStrategy
  {
    ClickReverse(ReversePage(DeadSymbolAttempts(p.attempts), p.coordinateClick))
  }

  /** A page where only the arrow-symbol button responds: as written the chain
      reports failure, the intended chain presses it in the first round. */
  lemma SymbolStrategyDeadAsWritten()
    ensures ClickReverseAsWritten(ReversePage([false, false, false, false, false, true], false)) == ReverseFailed
    ensures ClickReverse(ReversePage([false, false, false, false, false, true], false)) == ByStrategy(0, SymbolStrategy)
  {
    var o := [false, false, false, false, false, true];
    assert Succeeds(o, 5);
    assert forall j | 0 <= j < |o| && j != 5 :: !o[j];
  }

  /** The reversal chain reports success whenever its coordinate click does
      not raise, whatever the strategies did. */
  lemma ReverseOkWhenCoordinateClickWorks(p: ReversePage)
    requires p.coordinateClick
    ensures ClickReverse(p).Ok()
  {
  }

  /** What the page does after the swap is submitted: whether a Confirm button
      appears within its wait, and whether the completion notice does. */
  datatype ConfirmPage = ConfirmPage(confirmButton: bool, completionSignal: bool)

  /** What `confirm_transaction` did and what it reports. */
  datatype Confirmation = Confirmation(pressedConfirm: bool, signalled: bool, success: bool)

  /** `confirm_transaction`: press Confirm if it shows up, wait for the notice,
      and report success either way (a missing notice is assumed to mean the
      swap went through after a grace period). */
  function ConfirmTransaction(p: ConfirmPage): (r: Confirmation)
    ensures r.success
    ensures r.pressedConfirm <==> p.confirmButton
    ensures r.signalled <==> p.completionSignal
  {
    Confirmation(p.confirmButton, p.completionSignal, true)
  }
}

=== FILE: tokens.dfy ===
/** The two stable-value tokens, ordered token pairs, and how the displayed
    token order is read off the page's label texts (defi.py:337-351). */
module Tokens {

  /** The two tokens the bot swaps between. */
  datatype Token = USDC | USDT

  /** An ordered (from, to) pair of tokens. It is used both for the intended
      trade direction and for the order read off the page; only the former is
      required to be a real direction. */
  datatype Pair = Pair(from: Token, to: Token) {

    /** A trade direction moves value between two different tokens. */
    predicate IsDirection() {
      from != to
    }

    /** The reversed pair: what the swap-direction control is meant to produce. */
    function Flip(): Pair {
      Pair(to, from)
    }
  }

  const UsdcToUsdt: Pair := Pair(USDC, USDT)
  const UsdtToUsdc: Pair := Pair(USDT, USDC)

  /** The label text the page shows for a token. */
  function Name(t: Token): string {
    match t
    case USDC => "USDC"
    case USDT => "USDT"
  }

  /** Python's `t in s` for strings: `t` occurs as a contiguous substring of `s`. */
  predicate Contains(s: string, t: string) {
    exists i | 0 <= i <= |s| - |t| :: OccursAt(s, t, i)
  }

  /** `t` occurs in `s` starting at position `i`. */
  predicate OccursAt(s: string, t: string, i: nat) {
    i + |t| <= |s| && s[i..i + |t|] == t
  }

  /** Reading of the first (source-side) label: USDC if it mentions USDC, otherwise USDT. */
  function DetectFrom(text: string): Token {
    if Contains(text, "USDC") then USDC else USDT
  }

  /** Reading of the second (target-side) label: USDT if it mentions USDT, otherwise USDC. */
  function DetectTo(text: string): Token {
    if Contains(text, "USDT") then USDT else USDC
  }

  /** The displayed order as the reconciler reads it from the first two token labels. */
  function Detect(first: string, second: string): Pair {
    Pair(DetectFrom(first), DetectTo(second))
  }

  lemma NameMentionsOnlyItself(t: Token)
    ensures Contains(Name(t), Name(t))
    ensures t == USDC ==> !Contains(Name(t), "USDT")
    ensures t == USDT ==> !Contains(Name(t), "USDC")
  {
    assert OccursAt(Name(t), Name(t), 0);
    assert "USDC"[3] != "USDT"[3];
  }

  /** Labels that spell out the token names are read back as exactly the pair
      they show, for all four pairs (including the two same-token pairs). */
  lemma DetectReadsRenderedLabels(p: Pair)
    ensures Detect(Name(p.from), Name(p.to)) == p
  {
    NameMentionsOnlyItself(p.from);
    NameMentionsOnlyItself(p.to);
  }

  /** The reading is biased: each label is read on its own, the first as USDC
      exactly when it mentions USDC (so a label naming both tokens counts as
      USDC and one naming neither as USDT), the second as USDT exactly when it
      mentions USDT; labels naming neither token read as USDT -> USDC. */
  lemma DetectIsBiased(first: string, second: string)
    ensures Detect(first, second).from == USDC <==> Contains(first, "USDC")
    ensures Detect(first, second).from == USDT <==> !Contains(first, "USDC")
    ensures Detect(first, second).to == USDT <==> Contains(second, "USDT")
    ensures Detect(first, second).to == USDC <==> !Contains(second, "USDT")
    ensures !Contains(first, "USDC") && !Contains(second, "USDT") ==> Detect(first, second) == UsdtToUsdc
  {
  }

  /** Reversing twice restores the pair, and reversing keeps a direction a direction. */
  lemma FlipRoundTrip(p: Pair)
    ensures p.Flip().Flip() == p
    ensures p.IsDirection() <==> p.Flip().IsDirection()
  {
  }

  /** With two tokens there are exactly two directions, each the reverse of the other. */
  lemma DirectionsAreTheTwo(p: Pair)
    ensures p.IsDirection() <==> p == UsdcToUsdt || p == UsdtToUsdc
    ensures p.IsDirection() ==> p.Flip() != p
  {
  }

  /** Two directions are either equal or reverses of each other. */
  lemma DirectionsAgreeOrAreReversed(p: Pair, q: Pair)
    requires p.IsDirection() && q.IsDirection()
    ensures p == q || p.Flip() == q
  {
  }
}

=== FILE: trade_loop.dfy ===
/** The orchestration in `main` (defi.py:437-718): the bootstrap probe of both
    directions, then the budgeted trade loop with its reject path, backoff
    counter, ledger updates and direction flips. Wall-clock readings and page
    behaviour are inputs: one `Tick` per loop iteration. */
module TradeLoop {
  import opened Wrappers
  import opened Tokens
  import opened CostGate
  import opened Resolver
  import opened Ledger

  /** The budgets, read from the environment at start-up (defi.py:20-23).
      `waitBetweenTrades` only documents the source's pause between trades
      (defi.py:22); pauses take no part in the model. */
  datatype Config = Config(maxCostPerTrade: real, maxTotalCost: real, waitBetweenTrades: int, maxTrades: int)

  /** The budgets when the environment sets none. */
  const Defaults: Config := Config(0.3, 100.0, 4, 100)

  /** Seconds since the previous rejection (or the loop start) within which a
      rejection counts as a rapid retry (defi.py:617). */
  const SwitchWindow: real := 10.0

  /** Rapid rejections that trigger the long pause (defi.py:578, 622). */
  const MaxRetrySameDirection: nat := 3

  /** Length of that pause, in seconds (defi.py:624); it only documents the
      source's constant, since pauses take no part in the model. */
  const BackoffPause: nat := 15

  /** Everything `main` keeps across loop iterations: the intended direction,
      the trade counter, the module-level cost total and transaction list, the
      rapid-retry counter and `lastSwitch`, the time of the previous rejection
      or the loop start (defi.py:577, 630); the flip after a trade leaves it
      as it was. */
  datatype RunState = RunState(
    direction: Pair,
    tradeCount: nat,
    totalCost: real,
    transactions: seq<Record>,
    retries: nat,
    lastSwitch: real)

  /** The state on entering the loop (defi.py:26-27, 576-579). */
  function Initial(start: Pair, startTime: real): RunState {
    RunState(start, 0, 0.0, [], 0, startTime)
  }

  /** What holds at every loop head: the counters agree with the ledger, the
      direction is a real direction, and the retry counter is below its limit. */
  predicate Consistent(s: RunState) {
    && s.tradeCount == |s.transactions|
    && s.totalCost == TotalCost(s.transactions)
    && s.direction.IsDirection()
    && s.retries < MaxRetrySameDirection
  }

  /** The loop guard (defi.py:581). */
  predicate WithinBudget(c: Config, s: RunState) {
    s.tradeCount < c.maxTrades && s.totalCost < c.maxTotalCost
  }

  /** What the page and the clock do during one loop iteration. */
  datatype Tick = Tick(
    screenshotFails: bool,  // page.screenshot raises (defi.py:593)
    cost: CostPage,         // what the cost extraction sees (defi.py:608)
    swap: SwapPage,         // what the primary-action chain sees (defi.py:646)
    confirm: ConfirmPage,   // what confirm_transaction sees (defi.py:654)
    settleFails: bool,      // wait_for_load_state times out after a trade (defi.py:671)
    clock: real)            // the wall-clock reading of this iteration (defi.py:616, 656)

  /** How an iteration ended. `Rejected.paused`: the 15-second pause was taken.
      `Traded.flipped`: the direction was flipped for the next trade.
      `Unconfirmed` is the `else` branch of defi.py:701-703, which cannot be
      taken because `confirm_transaction` always returns True; `Step` never
      produces it. */
  datatype Event = Faulted | Rejected(paused: bool) | SwapMissed | Traded(flipped: bool) | Unconfirmed

  datatype Outcome = Outcome(state: RunState, event: Event)

  /** The retry counter after a rejection and whether the long pause was taken. */
  datatype Backoff = Backoff(retries: nat, paused: bool)

  /** Backoff bookkeeping of the reject path (defi.py:616-625): count a rapid
      rejection, forget the count after a quiet spell, and pause and reset once
      the count reaches its limit. */
  function NextBackoff(retries: nat, elapsed: real): (b: Backoff)
    ensures b.retries < MaxRetrySameDirection
    ensures b.paused <==> elapsed < SwitchWindow && retries + 1 >= MaxRetrySameDirection
    ensures b.paused || elapsed >= SwitchWindow ==> b.retries == 0
    ensures !b.paused && elapsed < SwitchWindow ==> b.retries == retries + 1
  {
    var bumped := if elapsed < SwitchWindow then retries + 1 else 0;
    if bumped >= MaxRetrySameDirection then Backoff(0, true) else Backoff(bumped, false)
  }

  /** One iteration of the trade loop (defi.py:582-707). */
  function Step(c: Config, s: RunState, t: Tick): (o: Outcome)
    ensures Consistent(s) ==> Consistent(o.state)
    // a fault the loop catches leaves the state as it was
    ensures o.event.Faulted? <==> t.screenshotFails
    ensures o.event.Faulted? ==> o.state == s
    // the gate decides between the reject path and the trade path
    ensures o.event.Rejected? <==> !t.screenshotFails && Rejects(ExtractCost(t.cost).value, c.maxCostPerTrade)
    ensures o.event.Rejected? ==>
              && o.state.direction == s.direction.Flip()
              && o.state.lastSwitch == t.clock
              && o.state.retries < MaxRetrySameDirection
              && o.state.retries == NextBackoff(s.retries, t.clock - s.lastSwitch).retries
              && o.event.paused == NextBackoff(s.retries, t.clock - s.lastSwitch).paused
              && (o.event.paused <==> t.clock - s.lastSwitch < SwitchWindow && s.retries + 1 >= MaxRetrySameDirection)
    // only a trade touches the ledger and the counters
    ensures !o.event.Traded? ==>
              && o.state.transactions == s.transactions
              && o.state.tradeCount == s.tradeCount
              && o.state.totalCost == s.totalCost
    ensures o.event.Traded? <==>
              && !t.screenshotFails
              && Accepts(ExtractCost(t.cost).value, c.maxCostPerTrade)
              && ClickSwap(t.swap).click.Clicked?
    ensures o.event.Traded? ==>
              && o.state.transactions == s.transactions + [Record(t.clock, s.direction.from, s.direction.to, ExtractCost(t.cost).value)]
              && o.state.tradeCount == s.tradeCount + 1
              && o.state.totalCost == s.totalCost + ExtractCost(t.cost).value
    ensures o.event.Traded? ==>
              && (o.event.flipped <==> !t.settleFails)
              && o.state.direction == (if o.event.flipped then s.direction.Flip() else s.direction)
    // an accepted quote resets the retry counter
    ensures o.event.Traded? ==> o.state.retries == 0 && o.state.lastSwitch == s.lastSwitch
    ensures o.event.SwapMissed? ==> o.state == s.(retries := 0)
    ensures o.event != Unconfirmed
  {
    if t.screenshotFails then Outcome(s, Faulted)
    else
      var cost := ExtractCost(t.cost).value;
      RejectsIsNotAccepts(cost, c.maxCostPerTrade);
      if Rejects(cost, c.maxCostPerTrade) then
        var b := NextBackoff(s.retries, t.clock - s.lastSwitch);
        Outcome(s.(direction := s.direction.Flip(), retries := b.retries, lastSwitch := t.clock), Rejected(b.paused))
      else
        var accepted := s.(retries := 0);
        if !ClickSwap(t.swap).click.Clicked? then Outcome(accepted, SwapMissed)
        else if !ConfirmTransaction(t.confirm).success then Outcome(accepted, Unconfirmed)
        else
          var record := Record(t.clock, s.direction.from, s.direction.to, cost);
          TotalCostAppend(s.transactions, record);
          var traded := accepted.(transactions := s.transactions + [record],
                                  totalCost := s.totalCost + cost,
                                  tradeCount := s.tradeCount + 1);
          if t.settleFails then Outcome(traded, Traded(false))
          else Outcome(traded.(direction := s.direction.Flip()), Traded(true))
  }

  /** Three rejections in a row, each within ten seconds of the previous
      rejection (of `s.lastSwitch` for the first), starting from a clear counter: the first two only count,
      the third takes the 15-second pause and clears the counter. */
  lemma ThreeRapidRejectionsPause(c: Config, s: RunState, t1: Tick, t2: Tick, t3: Tick)
    requires s.retries == 0
    requires !t1.screenshotFails && Rejects(ExtractCost(t1.cost).value, c.maxCostPerTrade)
    requires !t2.screenshotFails && Rejects(ExtractCost(t2.cost).value, c.maxCostPerTrade)
    requires !t3.screenshotFails && Rejects(ExtractCost(t3.cost).value, c.maxCostPerTrade)
    requires t1.clock - s.lastSwitch < SwitchWindow
    requires t2.clock - t1.clock < SwitchWindow && t3.clock - t2.clock < SwitchWindow
    ensures var o1 := Step(c, s, t1);
            var o2 := Step(c, o1.state, t2);
            var o3 := Step(c, o2.state, t3);
            && o1.event == Rejected(false) && o2.event == Rejected(false) && o3.event == Rejected(true)
            && o3.state.retries == 0
            && o3.state.direction == s.direction.Flip()
            && o3.state.transactions == s.transactions
  {
  }

  /** A swap whose completion notice never shows up is still recorded: the
      iteration's outcome does not depend on the confirmation page at all. */
  lemma MissingSignalStillRecorded(c: Config, s: RunState, t: Tick)
    ensures Step(c, s, t) == Step(c, s, t.(confirm := ConfirmPage(false, false)))
  {
  }

  /** The state and the events of a run of the loop. */
  datatype Trace = Trace(state: RunState, events: seq<Event>)

  /** The loop as a fold of `Step` over the supplied iterations: an iteration
      starts only while the budget guard (defi.py:581) holds. */
  function Run(c: Config, s: RunState, ticks: seq<Tick>): (r: Trace)
    ensures |r.events| <= |ticks|
    ensures |r.events| < |ticks| ==> !WithinBudget(c, r.state)
    ensures Consistent(s) ==> Consistent(r.state)
    ensures |r.events| == 0 ==> r.state == s
    decreases |ticks|
  {
    if |ticks| == 0 || !WithinBudget(c, s) then Trace(s, [])
    else
      var o := Step(c, s, ticks[0]);
      var rest := Run(c, o.state, ticks[1..]);
      Trace(rest.state, [o.event] + rest.events)
  }

  /** What `n` trades may spend at `ceiling` each, as repeated addition. */
  function Allowance(n: nat, ceiling: real): real {
    if n == 0 then 0.0 else Allowance(n - 1, ceiling) + ceiling
  }

  /** The allowance is the product `n * ceiling`. */
  lemma {:induction false} AllowanceIsProduct(n: nat, ceiling: real)
    ensures Allowance(n, ceiling) == n as real * ceiling
  {
    if n > 0 {
      AllowanceIsProduct(n - 1, ceiling);
      assert n as real * ceiling == (n - 1) as real * ceiling + ceiling;
    }
  }

  /** What the loop keeps of the ledger besides `Consistent`: no more trades
      than allowed, the total at most one trade past its budget and at most one
      ceiling per trade, and every record an accepted quote for a real direction. */
  predicate LedgerSound(c: Config, s: RunState) {
    && Consistent(s)
    && (s.tradeCount <= c.maxTrades || s.tradeCount == 0)
    && (s.transactions == [] || s.totalCost < c.maxTotalCost + c.maxCostPerTrade)
    && s.totalCost <= Allowance(s.tradeCount, c.maxCostPerTrade)
    && forall k | 0 <= k < |s.transactions| ::
         && Accepts(s.transactions[k].cost, c.maxCostPerTrade)
         && s.transactions[k].from != s.transactions[k].to
  }

  /** An iteration started under the budget guard keeps the ledger sound and
      only appends to it. */
  lemma StepKeepsLedgerSound(c: Config, s: RunState, t: Tick)
    requires LedgerSound(c, s) && WithinBudget(c, s)
    ensures LedgerSound(c, Step(c, s, t).state)
    ensures s.transactions <= Step(c, s, t).state.transactions
  {
    var o := Step(c, s, t);
    if o.event.Traded? {
      var n := |s.transactions|;
      assert forall k | 0 <= k < n :: o.state.transactions[k] == s.transactions[k];
    }
  }

  /** A whole run keeps the ledger sound and only appends to it. */
  lemma {:induction false} RunKeepsLedgerSound(c: Config, s: RunState, ticks: seq<Tick>)
    requires LedgerSound(c, s)
    ensures LedgerSound(c, Run(c, s, ticks).state)
    ensures s.transactions <= Run(c, s, ticks).state.transactions
    decreases |ticks|
  {
    if |ticks| > 0 && WithinBudget(c, s) {
      StepKeepsLedgerSound(c, s, ticks[0]);
      RunKeepsLedgerSound(c, Step(c, s, ticks[0]).state, ticks[1..]);
    }
  }

  /** When the first iteration of a run from an empty ledger trades, the first
      record goes the run's starting direction. */
  lemma FirstTradeGoesStartingWay(c: Config, s: RunState, ticks: seq<Tick>)
    requires LedgerSound(c, s) && s.transactions == []
    ensures var r := Run(c, s, ticks);
            |r.events| > 0 && r.events[0].Traded? ==>
              |r.state.transactions| > 0
              && r.state.transactions[0].from == s.direction.from
              && r.state.transactions[0].to == s.direction.to
  {
    if |ticks| > 0 && WithinBudget(c, s) {
      var o := Step(c, s, ticks[0]);
      StepKeepsLedgerSound(c, s, ticks[0]);
      RunKeepsLedgerSound(c, o.state, ticks[1..]);
    }
  }

  /** The trade loop of `main` (defi.py:576-707), run over the iterations the
      page and clock supply; it stops when the budget guard fails or the
      supplied iterations run out. */
  method RunTrades(c: Config, start: Pair, startTime: real, ticks: seq<Tick>) returns (s: RunState, events: seq<Event>)
    requires start.IsDirection()
    ensures Trace(s, events) == Run(c, Initial(start, startTime), ticks)
    ensures Consistent(s)
    ensures |events| <= |ticks|
    ensures |events| < |ticks| ==> !WithinBudget(c, s)
    ensures s.tradeCount <= c.maxTrades || s.tradeCount == 0
    ensures s.transactions == [] || s.totalCost < c.maxTotalCost + c.maxCostPerTrade
    ensures forall k | 0 <= k < |s.transactions| ::
              && Accepts(s.transactions[k].cost, c.maxCostPerTrade)
              && s.transactions[k].from != s.transactions[k].to
    ensures s.totalCost <= Allowance(s.tradeCount, c.maxCostPerTrade)
    ensures |events| == 0 ==> s == Initial(start, startTime)
    ensures |events| > 0 && events[0].Traded? ==>
              |s.transactions| > 0 && s.transactions[0].from == start.from && s.transactions[0].to == start.to
  {
    s := Initial(start, startTime);
    events := [];
    var i := 0;
    while i < |ticks| && WithinBudget(c, s)
      invariant i == |events| <= |ticks|
      invariant Run(c, Initial(start, startTime), ticks)
                == Trace(Run(c, s, ticks[i..]).state, events + Run(c, s, ticks[i..]).events)
    {
      var o := Step(c, s, ticks[i]);
      RunAdvances(c, s, ticks, i, events);
      s := o.state;
      events := events + [o.event];
      i := i + 1;
    }
    RunHalts(c, s, ticks, i);
    RunKeepsLedgerSound(c, Initial(start, startTime), ticks);
    FirstTradeGoesStartingWay(c, Initial(start, startTime), ticks);
  }

  /** One more iteration moves its event from the rest of the run to the
      events already taken. */
  lemma RunAdvances(c: Config, s: RunState, ticks: seq<Tick>, i: nat, events: seq<Event>)
    requires i < |ticks| && WithinBudget(c, s)
    ensures var o := Step(c, s, ticks[i]);
            var later := Run(c, o.state, ticks[i + 1..]);
            Trace(Run(c, s, ticks[i..]).state, events + Run(c, s, ticks[i..]).events)
            == Trace(later.state, (events + [o.event]) + later.events)
  {
    assert ticks[i..][0] == ticks[i] && ticks[i..][1..] == ticks[i + 1..];
    var o := Step(c, s, ticks[i]);
    var later := Run(c, o.state, ticks[i + 1..]);
    assert events + ([o.event] + later.events) == (events + [o.event]) + later.events;
  }

  /** Once the iterations run out or the budget guard fails, the run is over. */
  lemma RunHalts(c: Config, s: RunState, ticks: seq<Tick>, i: nat)
    requires i <= |ticks|
    requires i == |ticks| || !WithinBudget(c, s)
    ensures Run(c, s, ticks[i..]) == Trace(s, [])
  {
  }

  /** One bootstrap probe: what the select-maximum chain and the cost
      extraction see after the direction was set up (defi.py:507-527). */
  datatype Probe = Probe(allButton: AllButtonPage, cost: CostPage)

  /** A probe accepts its direction when the select-maximum control was pressed
      and the quote then passes the gate. */
  predicate ProbeAccepts(c: Config, p: Probe) {
    ClickAll(p.allButton).click.Clicked? && Accepts(ExtractCost(p.cost).value, c.maxCostPerTrade)
  }

  /** The bootstrap (defi.py:499-571): probe USDC -> USDT, and USDT -> USDC only
      if the first probe did not accept; no direction when neither accepts. */
  function Bootstrap(c: Config, first: Probe, second: Probe): (r: Option<Pair>)
    ensures r == Some(UsdcToUsdt) <==> ProbeAccepts(c, first)
    ensures r == Some(UsdtToUsdc) <==> !ProbeAccepts(c, first) && ProbeAccepts(c, second)
    ensures r.None? <==> !ProbeAccepts(c, first) && !ProbeAccepts(c, second)
    ensures r.Some? ==> r.value.IsDirection()
  {
    if ProbeAccepts(c, first) then Some(UsdcToUsdt)
    else if ProbeAccepts(c, second) then Some(UsdtToUsdc)
    else None
  }

  /** The second probe is never consulted once the first accepts. */
  lemma SecondProbeOnlyAfterRejection(c: Config, first: Probe, second: Probe, other: Probe)
    requires ProbeAccepts(c, first)
    ensures Bootstrap(c, first, second) == Bootstrap(c, first, other) == Some(UsdcToUsdt)
  {
  }

  /** With the default ceiling of 0.3, a first probe whose select-maximum
      control responds but whose page shows no readable cost starts trading
      USDC -> USDT on the strength of the 0.2 fallback alone. */
  lemma FallbackQuoteStartsUsdcToUsdt(first: Probe, second: Probe)
    requires ClickAll(first.allButton).click.Clicked?
    requires ExtractCost(first.cost).origin.Fallback?
    ensures Bootstrap(Defaults, first, second) == Some(UsdcToUsdt)
  {
  }

  /** How a whole run ends: no tradable direction at start-up, or the loop ran. */
  datatype Session = NoTradableDirection | Finished(state: RunState, events: seq<Event>)

  /** The modelled part of `main`: bootstrap, then the trade loop from the
      direction the bootstrap chose. */
  method RunBot(c: Config, first: Probe, second: Probe, startTime: real, ticks: seq<Tick>) returns (r: Session)
    ensures r.NoTradableDirection? <==> Bootstrap(c, first, second).None?
    ensures r.Finished? ==> Consistent(r.state) && |r.events| <= |ticks|
    ensures r.Finished? && r.events == [] ==> r.state.direction == Bootstrap(c, first, second).value
    ensures r.Finished? && |r.events| > 0 && r.events[0].Traded? ==>
              |r.state.transactions| > 0 && r.state.transactions[0].from == Bootstrap(c, first, second).value.from
    ensures r.Finished? ==> r.state.tradeCount <= c.maxTrades || r.state.tradeCount == 0
    ensures r.Finished? ==> Trace(r.state, r.events) == Run(c, Initial(Bootstrap(c, first, second).value, startTime), ticks)
  {
    var direction := Bootstrap(c, first, second);
    if direction.None? {
      return NoTradableDirection;
    }
    var s, events := RunTrades(c, direction.value, startTime, ticks);
    r := Finished(s, events);
  }
}

=== FILE: wrappers.dfy ===
/** The optional value shared by the other modules. */
module Wrappers {

  /** A value that may be absent: Python's `None` versus a present value. */
  datatype Option<+T> = None | Some(value: T)
}
